=== FILE: README.md ===
# Explainable contract-duration prediction API — Dafny model

This project models the three pure parts of the contract-duration prediction
service:

- **the rule synthesiser** (`convert_to_if_then`). It turns one class's LIME
  attributions, an ordered list of (feature, weight) pairs, into exactly one
  Spanish sentence. The sentence cites every strictly positive weight, in order.
  When no weight is positive, or when the class has no explanation at all, it
  says so instead.
- **the attribution table** (`construir_tabla_lime`). Each pair becomes one row.
  The row holds the full feature text, the instance's value in the column named
  by the text's first whitespace token (or `"?"`), and `Positiva`/`Negativa`
  depending on whether the weight is `>= 0`.
- **the `/predict` handler** (`predict()`). It renames the one external key
  `MAIN_ACTIVITY_general_public_services` to the internal key the models expect.
  It checks for a missing model name, dispatches on `random_forest`,
  `gradient_boosting` or `both`, compares the two predictions when both models
  are asked for, and turns every exception into the generic 500 response.

The model is functional. Explanations are `map<Label, seq<Attribution>>` with
`real` weights. The request is a `Payload` datatype over scalar JSON `Value`s.
Responses are a `Response` datatype (200 body, 400, 500). Python exceptions
become `Option`/`Result` values: a missing class is `NotFound`, `split()[0]` on
a blank feature is `IndexError`, and a failing classifier is `None`.

Three things that are external code or floating-point rendering become
function-valued parameters:

- the `.4f` weight rendering is `fmt4: real -> string`;
- the classifiers are `classify: (string, map<string, Value>) -> Option<Prediction>`.
  They are called only with the model's selected columns;
- the list of used features is the parameter `used`.

Every operation is a pure function of its inputs. This means the instance data
and the explanation are only read, never modified.

Modules: `Wrappers` (Option, Result), `Values` (JSON scalars, Python
truthiness), `Text` (Python whitespace, `split()[0]`, `", ".join`),
`Attributions` (attributions, `as_list` lookup), `Rules`, `Table`, `Api`, and
`CrossChecks` (how the rule and the table treat a zero weight differently).

Facts about the code that the model keeps as they are:

- The sentences are the Spanish texts of `API/Util/reglas_lime.py`.
- Only one input key is renamed.
- The renaming always inserts the internal key, with value 0 when the external
  key is absent. So it overwrites an internal key that the client sent itself.
- No key is dropped from the input, the empty-string key included.
- The table always shows the attributions of LIME's default label 1, because
  `as_list()` is called without a label.

## Model

| member | source | states |
|---|---|---|
| `Rules.ConvertToIfThen` | API/Util/reglas_lime.py:3-29 | Every path returns a list of exactly one sentence, and that sentence starts with the shared prefix naming `instance_to_explain` |
| `Rules.Positive` | API/Util/reglas_lime.py:7-8 | Every cited pair has a weight strictly above 0, and there are at most as many cited pairs as pairs |
| `Rules.PositiveMembers` | API/Util/reglas_lime.py:7-8 | A pair is cited iff it occurs in the explanation with a weight strictly above 0 |
| `Rules.Parts` | API/Util/reglas_lime.py:7-10 | The loop collects exactly as many parts as there are pairs with a weight strictly above 0 |
| `Rules.PartsCitePositive` | API/Util/reglas_lime.py:7-10 | The single loop that filters and formats equals citing, one part each (`feature + " tiene una importancia de " + fmt4(weight)`), exactly the positive pairs in order |
| `Rules.PositiveAppend` | API/Util/reglas_lime.py:7-10 | Filtering distributes over concatenation, so the cited pairs keep the explanation's relative order |
| `Rules.PositiveIdempotent` | API/Util/reglas_lime.py:8 | Filtering an already filtered list changes nothing |
| `Rules.NonPositiveIgnored` | API/Util/reglas_lime.py:8 | Zero and negative weights never affect the sentence: removing them beforehand yields the same output |
| `Rules.Verdict` | API/Util/reglas_lime.py:12-27 | After the prefix, the text is the "no explanation" message iff the lookup raised `KeyError`, and the "no positive importance" message iff the class was found with no weight above 0 |
| `Rules.NotFoundSentence` | API/Util/reglas_lime.py:23-27 | The sentence is prefix + "No se encontraron explicaciones para esta clase." iff the class has no entry in the explanation (`as_list` raises `KeyError`) |
| `Rules.NoPositiveSentence` | API/Util/reglas_lime.py:17-21 | The sentence is prefix + "No se encontraron características con importancia positiva." iff the class is present and no weight is strictly positive, the empty list included |
| `Rules.CitesExactlyPositive` | API/Util/reglas_lime.py:12-16 | With a positive weight present, the sentence is prefix + "Las siguientes características influyen: " + the cited parts of exactly the positive pairs joined by ", " + "." |
| `Rules.PositivePairCited` | API/Util/reglas_lime.py:9-15 | Every positively weighted pair's cited part appears verbatim inside the sentence |
| `Rules.CitesOnlyPositiveExample` | API/Util/reglas_lime.py:7-16 | For ("CAE_TYPE_5 > 0.5", 0.42) and ("NUMBER_OFFERS <= 3", -0.1), only the first pair is cited |
| `Attributions.AsList` | API/Util/reglas_lime.py:7 | `as_list(label=...)` returns the label's pairs when the explanation has that label, and otherwise is `NotFound`, the `KeyError` caught at line 23 |
| `Text.Join` | API/Util/reglas_lime.py:15 | `", ".join(parts)` starts with the first part, is that part alone for one part, and has the parts' total length plus one separator between each neighbouring two |
| `Text.JoinKeepsParts` | API/Util/reglas_lime.py:15 | `", ".join(parts)` contains each part as a contiguous piece |
| `Text.FirstToken` | API/Util/Util.py:40 | `feature.split()[0]` is absent (IndexError) iff the text is all whitespace; otherwise it is a non-empty whitespace-free run preceded only by whitespace and followed by whitespace or the end |
| `Text.FirstTokenOf` | API/Util/Util.py:40 | Conversely, a whitespace-only lead, then a non-empty whitespace-free word, then nothing or text starting with whitespace, always yields that word as the first token |
| `Table.BuildRow` | API/Util/Util.py:40-48 | A row fails iff the feature is blank; otherwise it keeps the full feature text, reads the first token's column or "?", and is Positiva iff weight >= 0 |
| `Table.ValueOf` | API/Util/Util.py:41 | The value is the instance's value in the named column when the frame has it, and "?" otherwise |
| `Table.BuildRows` | API/Util/Util.py:39-49 | Over a list of pairs: succeeds iff no feature is blank, and then has one row per pair, in order, each describing its pair; otherwise it reports the first blank feature's position |
| `Table.BuildTable` | API/Util/Util.py:37-49 | Fails with `KeyError` iff the explanation has no entry for the default label 1. Otherwise it succeeds iff none of that label's features is blank, and then has one row per pair of that label, in order, each describing its pair |
| `Table.ValueOfCondition` | API/Util/Util.py:40-41 | A feature written `<name> <condition>` shows the value of column `<name>`, or "?" when there is no such column |
| `CrossChecks.CitedImpliesPositiva` | API/Util/Util.py:43 | A pair the rule cites is Positiva in the table, and a zero-weight pair is Positiva yet never cited |
| `CrossChecks.ZeroWeightContrast` | API/Util/reglas_lime.py:8 | When every weight of the default label 1 is zero, the table, which shows that label, reads Positiva on every row, yet the rule for label 1 is the "no positive importance" sentence |
| `Api.Rename` | API/app.py:68 | After the rename, the internal key holds the external key's value (or 0 when absent), the external key is gone, and every other key is unchanged |
| `Api.RenameRoundTrip` | API/app.py:68 | Moving the internal key back to the external one restores the client's input iff the client sent the external key and not the internal one; otherwise a 0 is invented or the client's internal value is lost |
| `Api.Columns` | API/app.py:26 | The frame given to a model has exactly the used features as columns, with the input's values |
| `Api.Obtain` | API/app.py:25-59 | A result exists iff every used feature is in the input and the classifier succeeds on the selected columns. It is labelled with the model's name and carries the classifier's prediction, probability and plot |
| `Api.Single` | API/app.py:75-79 | The answer is 200 iff the model's result is obtained, and otherwise the generic 500. The body holds exactly that model's key, whose entry is the obtained result itself |
| `Api.Pair` | API/app.py:81-90 | The answer is 200 iff both results are obtained, and otherwise the generic 500. The body holds exactly the two obtained results under their names, plus `mensaje`, which is the agreement text iff the two predictions are equal and the disagreement text otherwise |
| `Api.Normalised` | API/app.py:66-68 | The dispatched input always holds the internal key, whose value is the client's external-key value or 0, and so is never empty. The external key is gone. Its other keys are exactly those of the request's `entrada` other than the external key, or none when the member is absent, each with the client's value |
| `Api.Predict` | API/app.py:62-98 | A 500 always carries "Error interno del servidor", and a 400 carries one of the two client texts. A 200 body is non-empty, uses only the two model keys and `mensaje`, labels each result with its key, and has `mensaje` iff "both" was asked for |
| `Values.Truthy` | API/app.py:70 | `modelo` passes the `not modelo_seleccionado` test iff it is present and is not `null`, `false`, `0`, `0.0` or `""` |
| `Api.MissingInputOnlyFromModel` | API/app.py:66-71 | The 400 "Faltan datos de entrada o modelo" arises iff the body is an object, `entrada` is absent or an object, and `modelo` is missing or falsy. The `entrada` half of the test never fires |
| `Api.UnknownModelRejected` | API/app.py:91-92 | The 400 "Modelo no reconocido" arises iff the model name is truthy but none of the three known names |
| `Api.SingleModelResponse` | API/app.py:75-79 | A single model name answers 200 iff its columns are present and its classifier succeeds. The body then holds only that key, with the model's name and the classifier's prediction, probability and plot, and no `mensaje`; otherwise the answer is the generic 500 |
| `Api.BothModelsResponse` | API/app.py:81-90 | "both" answers 200 iff the columns are present and both classifiers succeed. The body then holds both keys plus `mensaje`. Each result carries its model's name and its classifier's prediction, probability and plot, and `mensaje` is the agreement text iff the two classifiers' predictions are equal, else the disagreement text. Otherwise the answer is the generic 500 with no partial result |
| `Api.NonObjectIsServerError` | API/app.py:65-68 | A body that is not a JSON object, or an `entrada` that is not an object, ends in the generic 500 (the exception from `data.get` or `entrada.pop` caught at API/app.py:96-98), whatever the model name |
| `Api.MissingColumnIsServerError` | API/app.py:96-98 | With a known model name, a used feature missing from the normalised input ends in the generic 500 |
| `Api.UnusedFieldsIgnored` | API/app.py:26 | Input fields outside the used features never change the response, whether `entrada` was sent as an object or left out (the handler then uses `{}`) |

## Left out

- LIME explainer construction and `explain_instance` (randomised external library): the explanation is an input map from label to attribution list.
- Plot rendering, PNG file writing and reading, base64 encoding and the random file name: I/O; the encoded plot is an opaque string in `Prediction`.
- Model loading, the classifiers' `predict`/`predict_proba` and the `modelos[...]` lookups: external collaborators, folded into the `classify` parameter, which is assumed to know both model names.
- `round(float(proba), 4)` and the `.4f` rendering: floating-point formatting, kept as the opaque `probabilidad` field and the `fmt4` parameter.
- The numpy `.item()` unboxing of a table value: the value is returned as stored.
- The duplicate helper `generar_explica_lime`: plot rendering only.
- Flask routing, CORS, JSON decoding, `jsonify`, the error log line and `app.run`: framework and I/O. A body that is not a JSON object is the `NotJsonObject` payload.
- JSON arrays and objects as `modelo` values: `Value` covers scalars only. Such a value is truthy when non-empty and never equals a known name, so it would give "Modelo no reconocido".
- Nested JSON values inside `entrada`: its fields are scalar `Value`s only, so a field holding an array or an object cannot be represented.
- Api.UnusedFieldsIgnored: holds because `classify` is a function, so the same selected columns always give the same prediction and the same plot string. The real LIME plot comes from a random draw and can differ between two calls.
- The data frame's column order and dtypes: the classifier receives the selected columns as a map.
- Table.BuildRows: the instance frame is one row, a `Frame` map from column to value. `datos_df[nombre].values[0]` on a frame with no rows raises `IndexError`, which the model cannot produce, so "succeeds iff no feature is blank" is stated for the one-row frame the handler builds.
- NaN weights: weights are `real`, so NaN cannot be represented. In the code `NaN >= 0` and `NaN > 0` are both false, so such a pair would read Negativa in the table and never be cited.
- Duration-label parsing, duration suggestions, confidence tiers and one-hot or count validation: not part of the modelled code.

=== FILE: api.dfy ===
/** The `/predict` handler of `app.py`: normalise the request's input map,
    dispatch on the model name, and shape the response. The classifiers and
    everything `obtener_resultado` does after selecting the model's columns
    (prediction, probability, LIME plot) are one opaque parameter. */
module Api {
  import opened Wrappers
  import opened Values

  /** The key the form sends, and the key the trained models expect. */
  const ExternalKey := "MAIN_ACTIVITY_general_public_services"
  const InternalKey := "MAIN_ACTIVITY_general public\\services"

  const RandomForest := "random_forest"
  const GradientBoosting := "gradient_boosting"
  const Both := "both"
  const MessageKey := "mensaje"

  const MissingInput := "Faltan datos de entrada o modelo"
  const UnknownModel := "Modelo no reconocido"
  const InternalError := "Error interno del servidor"
  const Agree := "\U{2705} Ambos modelos coinciden."
  const Differ := "\U{26A0}\U{FE0F} Los modelos difieren. Recomendamos revisar manualmente."

  /** The request's `entrada` member: absent, a JSON object, or anything else
      (`null`, a list, a string, ...). */
  datatype Entrada = Absent | Object(fields: map<string, Value>) | NotObject

  /** The decoded request body: a JSON object with optional `modelo` and
      `entrada` members, or a body that is not a JSON object at all. */
  datatype Payload = Payload(modelo: Option<Value>, entrada: Entrada) | NotJsonObject

  /** What a classifier yields for the selected columns: the predicted label
      as text, the rounded probability and the encoded LIME plot. */
  datatype Prediction = Prediction(prediccion: string, probabilidad: real, lime: string)

  /** The dictionary `obtener_resultado` returns. */
  datatype Resultado = Resultado(modelo: string, prediccion: string, probabilidad: real, lime: string)

  /** A member of a successful response body: a model's result or the message. */
  datatype Entry = ModelResult(result: Resultado) | Message(text: string)

  /** The HTTP response: 200 with a body, 400 or 500 with an error text. */
  datatype Response =
    | Ok(body: map<string, Entry>)
    | BadRequest(error: string)
    | ServerError(error: string)

  /** The trained classifier named by its first argument, applied to the
      selected columns; `None` when it raises. */
  type Classifier = (string, map<string, Value>) -> Option<Prediction>

  /** The key correction the handler applies to every input: the external
      key's value (0 when it is absent) is stored under the internal key, and
      the external key is removed. */
  function Rename(entrada: map<string, Value>): (r: map<string, Value>)
    ensures InternalKey in r && ExternalKey !in r
    ensures r[InternalKey] == if ExternalKey in entrada then entrada[ExternalKey] else IntVal(0)
    ensures forall k :: k != InternalKey && k != ExternalKey ==>
      (k in r <==> k in entrada) && (k in r ==> r[k] == entrada[k])
  {
    assert ExternalKey[21] != InternalKey[21];
    (entrada - {ExternalKey})[InternalKey := if ExternalKey in entrada then entrada[ExternalKey] else IntVal(0)]
  }

  /** The inverse renaming: the internal key back to the external one. */
  function Restore(entrada: map<string, Value>): map<string, Value>
  {
    if InternalKey in entrada then (entrada - {InternalKey})[ExternalKey := entrada[InternalKey]]
    else entrada
  }

  /** The rename loses nothing exactly when the client sent the external key
      and not the internal one: otherwise either a 0 is invented or the
      client's own internal value is overwritten. */
  lemma RenameRoundTrip(entrada: map<string, Value>)
    ensures Restore(Rename(entrada)) == entrada <==> ExternalKey in entrada && InternalKey !in entrada
  {
    var back := Restore(Rename(entrada));
    assert ExternalKey[21] != InternalKey[21];
    assert ExternalKey in back;
    if ExternalKey in entrada && InternalKey !in entrada {
      assert back.Keys == entrada.Keys;
    } else if InternalKey in entrada {
      assert InternalKey !in back;
    }
  }

  /** Every model column is present in the input. */
  predicate HasColumns(entrada: map<string, Value>, used: seq<string>)
  {
    forall f :: f in used ==> f in entrada
  }

  /** `pd.DataFrame([entrada])[used_features]`: the input restricted to the
      model's columns. */
  function Columns(entrada: map<string, Value>, used: seq<string>): (frame: map<string, Value>)
    requires HasColumns(entrada, used)
    ensures forall f :: f in frame <==> f in used
    ensures forall f :: f in frame ==> frame[f] == entrada[f]
  {
    map f | f in used :: entrada[f]
  }

  /** `obtener_resultado(name, modelos[name], entrada)`: `None` when it raises,
      either because selecting the model's columns finds one missing from the
      input or because the classifier itself fails. */
  function Obtain(name: string, entrada: map<string, Value>, used: seq<string>,
                  classify: Classifier): (r: Option<Resultado>)
    ensures r.Some? <==> HasColumns(entrada, used) && classify(name, Columns(entrada, used)).Some?
    ensures r.Some? ==>
      var p := classify(name, Columns(entrada, used)).value;
      && r.value.modelo == name
      && r.value.prediccion == p.prediccion
      && r.value.probabilidad == p.probabilidad
      && r.value.lime == p.lime
  {
    if !HasColumns(entrada, used) then None
    else
      match classify(name, Columns(entrada, used))
      case None => None
      case Some(p) => Some(Resultado(name, p.prediccion, p.probabilidad, p.lime))
  }

  /** The response for a single named model: its result alone, or the generic 500. */
  function Single(name: string, entrada: map<string, Value>, used: seq<string>,
                  classify: Classifier): (r: Response)
    ensures r.Ok? ==> r.body.Keys == {name} && r.body[name].ModelResult?
                      && r.body[name].result.modelo == name
    ensures r.ServerError? <==> Obtain(name, entrada, used, classify).None?
    ensures var o := Obtain(name, entrada, used, classify);
      && (r.Ok? <==> o.Some?)
      && (!r.Ok? ==> r == ServerError(InternalError))
      && (r.Ok? ==> r.body[name] == ModelResult(o.value))
  {
    match Obtain(name, entrada, used, classify)
    case None => ServerError(InternalError)
    case Some(res) => Ok(map[name := ModelResult(res)])
  }

  /** The response when both models are asked for: both results and a verdict on whether they agree. */
  function Pair(entrada: map<string, Value>, used: seq<string>, classify: Classifier): (r: Response)
    ensures r.Ok? ==> && r.body.Keys == {RandomForest, GradientBoosting, MessageKey}
                      && r.body[RandomForest].ModelResult? && r.body[RandomForest].result.modelo == RandomForest
                      && r.body[GradientBoosting].ModelResult?
                      && r.body[GradientBoosting].result.modelo == GradientBoosting
                      && r.body[MessageKey].Message?
    ensures var rf := Obtain(RandomForest, entrada, used, classify);
            var gb := Obtain(GradientBoosting, entrada, used, classify);
      && (r.Ok? <==> rf.Some? && gb.Some?)
      && (!r.Ok? ==> r == ServerError(InternalError))
      && (r.Ok? ==> && r.body[RandomForest] == ModelResult(rf.value)
                    && r.body[GradientBoosting] == ModelResult(gb.value)
                    && (r.body[MessageKey] == Message(Agree) <==> rf.value.prediccion == gb.value.prediccion)
                    && (r.body[MessageKey] == Message(Differ) <==> rf.value.prediccion != gb.value.prediccion))
  {
    assert |Agree| != |Differ|;
    assert MessageKey[0] != RandomForest[0] && MessageKey[0] != GradientBoosting[0];
    assert RandomForest[0] != GradientBoosting[0];
    match (Obtain(RandomForest, entrada, used, classify), Obtain(GradientBoosting, entrada, used, classify))
    case (Some(rf), Some(gb)) =>
      var mensaje := if rf.prediccion == gb.prediccion then Agree else Differ;
      Ok(map[RandomForest := ModelResult(rf), GradientBoosting := ModelResult(gb),
             MessageKey := Message(mensaje)])
    case _ => ServerError(InternalError)
  }

  /** The input map the handler dispatches on: the request's `entrada`
      (an empty map when the member is absent) after the key correction. */
  function Normalised(payload: Payload): (r: map<string, Value>)
    requires payload.Payload?
    ensures InternalKey in r && ExternalKey !in r && r != map[]
    ensures forall k :: k != InternalKey && k != ExternalKey ==>
      (k in r <==> payload.entrada.Object? && k in payload.entrada.fields)
    ensures forall k :: k in r && k != InternalKey ==>
      payload.entrada.Object? && k in payload.entrada.fields && r[k] == payload.entrada.fields[k]
    ensures r[InternalKey] == if payload.entrada.Object? && ExternalKey in payload.entrada.fields
                              then payload.entrada.fields[ExternalKey] else IntVal(0)
  {
    Rename(if payload.entrada.Object? then payload.entrada.fields else map[])
  }

  /** `predict()`; every exception the handler catches becomes the 500. */
  function Predict(payload: Payload, used: seq<string>, classify: Classifier): (r: Response)
    ensures r.ServerError? ==> r.error == InternalError
    ensures r.BadRequest? ==> r.error == MissingInput || r.error == UnknownModel
    ensures r.Ok? ==> r.body.Keys <= {RandomForest, GradientBoosting, MessageKey} && r.body != map[]
    ensures r.Ok? ==> forall k :: k in r.body && k != MessageKey ==>
      r.body[k].ModelResult? && r.body[k].result.modelo == k
    ensures r.Ok? ==> (MessageKey in r.body <==> payload.Payload? && payload.modelo == Some(StrVal(Both)))
  {
    assert MessageKey[0] != RandomForest[0] && MessageKey[0] != GradientBoosting[0];
    if payload.NotJsonObject? || payload.entrada.NotObject? then ServerError(InternalError)
    else
      var entrada := Normalised(payload);
      var modelo := payload.modelo;
      if entrada == map[] || !Truthy(modelo) then BadRequest(MissingInput)
      else if modelo == Some(StrVal(RandomForest)) then Single(RandomForest, entrada, used, classify)
      else if modelo == Some(StrVal(GradientBoosting)) then Single(GradientBoosting, entrada, used, classify)
      else if modelo == Some(StrVal(Both)) then Pair(entrada, used, classify)
      else BadRequest(UnknownModel)
  }

  /** Because the rename always inserts a key, "missing data" can only mean a
      missing or falsy model name. */
  lemma MissingInputOnlyFromModel(payload: Payload, used: seq<string>, classify: Classifier)
    ensures Predict(payload, used, classify) == BadRequest(MissingInput)
            <==> payload.Payload? && !payload.entrada.NotObject? && !Truthy(payload.modelo)
  {
    assert MissingInput[0] != UnknownModel[0];
    if payload.Payload? && !payload.entrada.NotObject? {
      assert InternalKey in Normalised(payload);
    }
  }

  /** A truthy model name other than the three known ones is a 400
      "Modelo no reconocido", and nothing else is. */
  lemma UnknownModelRejected(payload: Payload, used: seq<string>, classify: Classifier)
    ensures Predict(payload, used, classify) == BadRequest(UnknownModel)
            <==> && payload.Payload? && !payload.entrada.NotObject? && Truthy(payload.modelo)
                 && payload.modelo !in {Some(StrVal(RandomForest)), Some(StrVal(GradientBoosting)),
                                        Some(StrVal(Both))}
  {
    assert MissingInput[0] != UnknownModel[0];
    if payload.Payload? && !payload.entrada.NotObject? {
      assert InternalKey in Normalised(payload);
    }
  }

  /** Asking for one model answers with that model's result alone, carrying
      the classifier's prediction, and no message; it fails only with the 500. */
  lemma SingleModelResponse(payload: Payload, used: seq<string>, classify: Classifier, name: string)
    requires name == RandomForest || name == GradientBoosting
    requires payload.Payload? && !payload.entrada.NotObject? && payload.modelo == Some(StrVal(name))
    ensures var r := Predict(payload, used, classify);
      && (r.Ok? <==> HasColumns(Normalised(payload), used)
                     && classify(name, Columns(Normalised(payload), used)).Some?)
      && (r.Ok? ==>
            var p := classify(name, Columns(Normalised(payload), used)).value;
            && r.body.Keys == {name} && MessageKey !in r.body
            && r.body[name] == ModelResult(Resultado(name, p.prediccion, p.probabilidad, p.lime)))
      && (!r.Ok? ==> r == ServerError(InternalError))
  {
    assert InternalKey in Normalised(payload);
    assert RandomForest[0] != GradientBoosting[0];
    assert MessageKey[0] != RandomForest[0] && MessageKey[0] != GradientBoosting[0];
  }

  /** Asking for both models answers with both results and the message, which
      is the agreement text exactly when the two predictions are equal. */
  lemma BothModelsResponse(payload: Payload, used: seq<string>, classify: Classifier)
    requires payload.Payload? && !payload.entrada.NotObject? && payload.modelo == Some(StrVal(Both))
    ensures var r := Predict(payload, used, classify);
      && (r.Ok? <==> && HasColumns(Normalised(payload), used)
                     && classify(RandomForest, Columns(Normalised(payload), used)).Some?
                     && classify(GradientBoosting, Columns(Normalised(payload), used)).Some?)
      && (r.Ok? ==>
            var rf := classify(RandomForest, Columns(Normalised(payload), used)).value;
            var gb := classify(GradientBoosting, Columns(Normalised(payload), used)).value;
            && r.body.Keys == {RandomForest, GradientBoosting, MessageKey}
            && r.body[RandomForest]
               == ModelResult(Resultado(RandomForest, rf.prediccion, rf.probabilidad, rf.lime))
            && r.body[GradientBoosting]
               == ModelResult(Resultado(GradientBoosting, gb.prediccion, gb.probabilidad, gb.lime))
            && (r.body[MessageKey] == Message(Agree) <==> rf.prediccion == gb.prediccion)
            && (r.body[MessageKey] == Message(Differ) <==> rf.prediccion != gb.prediccion))
      && (!r.Ok? ==> r == ServerError(InternalError))
  {
    assert InternalKey in Normalised(payload);
    assert Both[0] != RandomForest[0] && Both[0] != GradientBoosting[0];
    assert |Agree| != |Differ|;
  }

  /** A body that is not a JSON object fails at `data.get`, and an `entrada`
      that is not an object fails at `entrada.pop`; both end in the generic
      500, whatever the model name. */
  lemma NonObjectIsServerError(payload: Payload, used: seq<string>, classify: Classifier)
    requires payload.NotJsonObject? || payload.entrada.NotObject?
    ensures Predict(payload, used, classify) == ServerError(InternalError)
  {
  }

  /** A known model name with a model column missing from the normalised
      input ends in the generic 500, with no partial result. */
  lemma MissingColumnIsServerError(payload: Payload, used: seq<string>, classify: Classifier, f: string)
    requires payload.Payload? && !payload.entrada.NotObject?
    requires payload.modelo in {Some(StrVal(RandomForest)), Some(StrVal(GradientBoosting)), Some(StrVal(Both))}
    requires f in used && f !in Normalised(payload)
    ensures Predict(payload, used, classify) == ServerError(InternalError)
  {
    assert InternalKey in Normalised(payload);
  }

  /** The response depends on the normalised input only through the model's
      columns: fields the models do not use never change the answer. */
  lemma UnusedFieldsIgnored(p: Payload, q: Payload, used: seq<string>, classify: Classifier)
    requires p.Payload? && q.Payload? && p.modelo == q.modelo
    requires !p.entrada.NotObject? && !q.entrada.NotObject?
    requires forall f :: f in used ==>
      (f in Normalised(p) <==> f in Normalised(q))
      && (f in Normalised(p) ==> Normalised(p)[f] == Normalised(q)[f])
    ensures Predict(p, used, classify) == Predict(q, used, classify)
  {
    var a, b := Normalised(p), Normalised(q);
    if HasColumns(a, used) {
      assert Columns(a, used) == Columns(b, used);
    }
  }
}

=== FILE: cross_checks.dfy ===
/** How the rule synthesiser and the attribution table read the same weights
    differently: the table's direction test is `>= 0`, the rule's citation
    test is `> 0`. */
module CrossChecks {
  import opened Attributions
  import opened Rules
  import opened Table

  /** A pair the rule cites always shows as Positiva in the table; a pair of
      weight zero also shows as Positiva but is never cited. */
  lemma CitedImpliesPositiva(pairs: seq<Attribution>, frame: Frame, i: nat)
    requires i < |pairs| && BuildRows(pairs, frame).Success?
    ensures pairs[i] in Positive(pairs) ==> BuildRows(pairs, frame).value[i].influencia == Positiva
    ensures pairs[i].weight == 0.0 ==>
      BuildRows(pairs, frame).value[i].influencia == Positiva && pairs[i] !in Positive(pairs)
  {
  }

  /** When every weight of the default label is zero, the table, which always
      shows that label, reads Positiva on every row, yet the label's rule says
      no feature has positive importance. */
  lemma {:induction false} ZeroWeightContrast(explanation: Explanation, instance: string,
                                              fmt4: real -> string, frame: Frame)
    requires DefaultLabel in explanation
    requires forall a :: a in explanation[DefaultLabel] ==> a.weight == 0.0
    requires BuildTable(explanation, frame).Success?
    ensures forall row :: row in BuildTable(explanation, frame).value ==> row.influencia == Positiva
    ensures ConvertToIfThen(explanation, DefaultLabel, instance, fmt4) == [Prefix(instance) + NoPositive]
  {
    var pairs := explanation[DefaultLabel];
    var rows := BuildTable(explanation, frame).value;
    forall row | row in rows
      ensures row.influencia == Positiva
    {
      var i :| 0 <= i < |rows| && rows[i] == row;
      assert pairs[i] in pairs;
    }
    NoPositiveSentence(explanation, DefaultLabel, instance, fmt4);
  }
}

=== FILE: explanation.dfy ===
/** The local attribution a LIME explanation holds: for each class label, the
    ordered (feature, weight) pairs that `as_list(label=...)` returns. How the
    weights are fitted is not part of this model; the explanation is an input. */
module Attributions {

  /** One (feature text, signed weight) pair, e.g. ("NUMBER_OFFERS <= 3", -0.1). */
  datatype Attribution = Attribution(feature: string, weight: real)

  /** LIME identifies a class by its position in the classifier's class list. */
  type Label = int

  /** Per class label, the ordered attributions of one explained instance. */
  type Explanation = map<Label, seq<Attribution>>

  /** The label `as_list()` reads when it is given none: LIME's default, 1. */
  const DefaultLabel: Label := 1

  /** The outcome of asking an explanation for one label's pairs: `as_list`
      either returns them or raises `KeyError`. */
  datatype Lookup = Found(pairs: seq<Attribution>) | NotFound

  /** `explanation.as_list(label=className)`. */
  function AsList(explanation: Explanation, className: Label): (r: Lookup)
    ensures r.NotFound? <==> className !in explanation
    ensures r.Found? ==> r.pairs == explanation[className]
  {
    if className in explanation then Found(explanation[className]) else NotFound
  }
}

=== FILE: rules.dfy ===
/** The rule synthesiser of `Util/reglas_lime.py`: one class's attributions
    become exactly one Spanish sentence that cites, in order, the features
    whose weight is strictly positive. */
module Rules {
  import opened Text
  import opened Attributions

  const Lead := "Con las condiciones actuales, se recomienda hacer una contratación en "
  const Influential := "Las siguientes características influyen: "
  const NoneFound := "No se encontraron "
  const NoPositive := NoneFound + "características con importancia positiva."
  const NoExplanation := NoneFound + "explicaciones para esta clase."
  const HasImportance := " tiene una importancia de "
  const Separator := ", "

  /** The opening every sentence shares; it names the recommended instance. */
  function Prefix(instance: string): string
  {
    Lead + instance + ". "
  }

  /** The pairs the sentence cites: those whose weight is strictly positive,
      in their original order. */
  function Positive(pairs: seq<Attribution>): (r: seq<Attribution>)
    ensures |r| <= |pairs|
    ensures forall i :: 0 <= i < |r| ==> r[i].weight > 0.0
    decreases |pairs|
  {
    if pairs == [] then []
    else (if pairs[0].weight > 0.0 then [pairs[0]] else []) + Positive(pairs[1..])
  }

  /** A pair is cited iff it occurs in the explanation with a strictly
      positive weight. */
  lemma {:induction false} PositiveMembers(pairs: seq<Attribution>, a: Attribution)
    ensures a in Positive(pairs) <==> a in pairs && a.weight > 0.0
    decreases |pairs|
  {
    if pairs != [] {
      PositiveMembers(pairs[1..], a);
      assert a in pairs <==> a == pairs[0] || a in pairs[1..];
    }
  }

  /** One cited part; `fmt4` renders a weight with four decimals (`{:.4f}`). */
  function Cite(a: Attribution, fmt4: real -> string): string
  {
    a.feature + HasImportance + fmt4(a.weight)
  }

  /** The `rule_parts` list `convert_to_if_then` accumulates: a part for every
      pair it sees with a positive weight. */
  function Parts(pairs: seq<Attribution>, fmt4: real -> string): (parts: seq<string>)
    ensures |parts| == |Positive(pairs)|
    decreases |pairs|
  {
    if pairs == [] then []
    else
      (if pairs[0].weight > 0.0 then [Cite(pairs[0], fmt4)] else [])
      + Parts(pairs[1..], fmt4)
  }

  /** The cited parts of a list of pairs, one per pair, in order. */
  function CiteAll(pairs: seq<Attribution>, fmt4: real -> string): (parts: seq<string>)
    ensures |parts| == |pairs|
    ensures forall i :: 0 <= i < |pairs| ==> parts[i] == Cite(pairs[i], fmt4)
    decreases |pairs|
  {
    if pairs == [] then [] else [Cite(pairs[0], fmt4)] + CiteAll(pairs[1..], fmt4)
  }

  /** What the sentence says after the common prefix, for each of the three
      branches of `convert_to_if_then`. */
  function Verdict(lookup: Lookup, fmt4: real -> string): (r: string)
    ensures r == NoExplanation <==> lookup.NotFound?
    ensures r == NoPositive <==> lookup.Found? && Positive(lookup.pairs) == []
  {
    assert NoExplanation[|NoneFound|] == 'e' && NoPositive[|NoneFound|] == 'c';
    assert NoExplanation[0] == NoPositive[0] == NoneFound[0] == 'N' && Influential[0] == 'L';
    match lookup
    case NotFound => NoExplanation
    case Found(pairs) =>
      var parts := Parts(pairs, fmt4);
      if parts != [] then Influential + Join(parts, Separator) + "."
      else NoPositive
  }

  /** `convert_to_if_then(explanation, class_name, instance_to_explain)`. */
  function ConvertToIfThen(explanation: Explanation, className: Label,
                           instance: string, fmt4: real -> string): (r: seq<string>)
    ensures |r| == 1
    ensures |r[0]| > |Prefix(instance)| && r[0][..|Prefix(instance)|] == Prefix(instance)
  {
    var verdict := Verdict(AsList(explanation, className), fmt4);
    assert (Prefix(instance) + verdict)[..|Prefix(instance)|] == Prefix(instance);
    [Prefix(instance) + verdict]
  }

  /** Sentences that share the prefix are equal exactly when their verdicts are. */
  lemma SamePrefix(p: string, x: string, y: string)
    ensures p + x == p + y <==> x == y
  {
    if p + x == p + y {
      assert x == (p + x)[|p|..];
      assert y == (p + y)[|p|..];
    }
  }

  /** The single pass that filters and formats at once yields exactly the
      positive pairs, each cited: filtering first and formatting afterwards
      gives the same list. */
  lemma {:induction false} PartsCitePositive(pairs: seq<Attribution>, fmt4: real -> string)
    ensures Parts(pairs, fmt4) == CiteAll(Positive(pairs), fmt4)
    decreases |pairs|
  {
    if pairs != [] {
      PartsCitePositive(pairs[1..], fmt4);
      var rest := Positive(pairs[1..]);
      if pairs[0].weight > 0.0 {
        assert Positive(pairs) == [pairs[0]] + rest;
        assert Parts(pairs, fmt4) == [Cite(pairs[0], fmt4)] + Parts(pairs[1..], fmt4);
        assert ([pairs[0]] + rest)[1..] == rest;
      } else {
        assert Positive(pairs) == rest;
      }
    }
  }

  /** Filtering distributes over concatenation, so the cited pairs keep the
      explanation's order across any split of the list. */
  lemma {:induction false} PositiveAppend(a: seq<Attribution>, b: seq<Attribution>)
    ensures Positive(a + b) == Positive(a) + Positive(b)
    decreases |a|
  {
    if a == [] {
      assert a + b == b;
    } else {
      assert (a + b)[1..] == a[1..] + b;
      PositiveAppend(a[1..], b);
    }
  }

  /** Pairs with a zero or negative weight never influence the sentence:
      dropping them up front changes nothing. */
  lemma {:induction false} NonPositiveIgnored(explanation: Explanation, className: Label,
                                              instance: string, fmt4: real -> string)
    requires className in explanation
    ensures ConvertToIfThen(explanation, className, instance, fmt4)
         == ConvertToIfThen(explanation[className := Positive(explanation[className])],
                            className, instance, fmt4)
  {
    var pairs := explanation[className];
    PositiveIdempotent(pairs);
    PartsCitePositive(pairs, fmt4);
    PartsCitePositive(Positive(pairs), fmt4);
  }

  lemma {:induction false} PositiveIdempotent(pairs: seq<Attribution>)
    ensures Positive(Positive(pairs)) == Positive(pairs)
    decreases |pairs|
  {
    if pairs != [] {
      PositiveIdempotent(pairs[1..]);
      var head := if pairs[0].weight > 0.0 then [pairs[0]] else [];
      PositiveAppend(head, Positive(pairs[1..]));
    }
  }

  /** The "no explanation" sentence is produced exactly when the class has no
      entry in the explanation, and then nothing from the explanation shows. */
  lemma NotFoundSentence(explanation: Explanation, className: Label,
                         instance: string, fmt4: real -> string)
    ensures ConvertToIfThen(explanation, className, instance, fmt4)[0] == Prefix(instance) + NoExplanation
            <==> className !in explanation
  {
    var v := Verdict(AsList(explanation, className), fmt4);
    SamePrefix(Prefix(instance), v, NoExplanation);
    if className in explanation {
      if Parts(explanation[className], fmt4) != [] {
        assert v[0] == Influential[0] == 'L';
        assert NoExplanation[0] == NoneFound[0] == 'N';
      } else {
        assert v[|NoneFound|] == 'c' != NoExplanation[|NoneFound|];
      }
    }
  }

  /** The "no positive feature" sentence is produced exactly when the class is
      present but none of its weights is strictly positive (an empty list
      included). */
  lemma NoPositiveSentence(explanation: Explanation, className: Label,
                           instance: string, fmt4: real -> string)
    ensures ConvertToIfThen(explanation, className, instance, fmt4)[0] == Prefix(instance) + NoPositive
            <==> className in explanation && forall a :: a in explanation[className] ==> a.weight <= 0.0
  {
    var v := Verdict(AsList(explanation, className), fmt4);
    SamePrefix(Prefix(instance), v, NoPositive);
    if className in explanation {
      var pairs := explanation[className];
      PartsCitePositive(pairs, fmt4);
      if Parts(pairs, fmt4) != [] {
        assert v[0] == Influential[0] == 'L';
        assert NoPositive[0] == NoneFound[0] == 'N';
        PositiveMembers(pairs, Positive(pairs)[0]);
      } else {
        forall a | a in pairs
          ensures a.weight <= 0.0
        {
          PositiveMembers(pairs, a);
        }
      }
    } else {
      assert v[|NoneFound|] == 'e' != NoPositive[|NoneFound|];
    }
  }

  /** With at least one positive weight the sentence cites exactly the
      positive pairs, in order, joined by ", " and closed by a full stop. */
  lemma CitesExactlyPositive(explanation: Explanation, className: Label,
                             instance: string, fmt4: real -> string)
    requires className in explanation
    requires exists a :: a in explanation[className] && a.weight > 0.0
    ensures ConvertToIfThen(explanation, className, instance, fmt4)[0]
         == Prefix(instance)
            + (Influential + Join(CiteAll(Positive(explanation[className]), fmt4), Separator) + ".")
  {
    var pairs := explanation[className];
    var parts := Parts(pairs, fmt4);
    PartsCitePositive(pairs, fmt4);
    var a :| a in pairs && a.weight > 0.0;
    PositiveMembers(pairs, a);
    assert parts != [];
    assert AsList(explanation, className) == Found(pairs);
    var v := Influential + Join(parts, Separator) + ".";
    assert Verdict(Found(pairs), fmt4) == v;
  }

  /** Every positively weighted pair of the class is cited, verbatim, in the
      sentence. */
  lemma PositivePairCited(explanation: Explanation, className: Label,
                          instance: string, fmt4: real -> string, a: Attribution)
    requires className in explanation && a in explanation[className] && a.weight > 0.0
    ensures IsInfix(Cite(a, fmt4), ConvertToIfThen(explanation, className, instance, fmt4)[0])
  {
    var pos := Positive(explanation[className]);
    var parts := CiteAll(pos, fmt4);
    CitesExactlyPositive(explanation, className, instance, fmt4);
    PositiveMembers(explanation[className], a);
    var n :| 0 <= n < |pos| && pos[n] == a;
    assert parts[n] == Cite(a, fmt4);
    JoinKeepsPartsInside(parts, Separator, n, Prefix(instance), Influential, ".");
  }

  /** A worked case: of a positive and a negative attribution only the
      positive one is cited. */
  lemma CitesOnlyPositiveExample(fmt4: real -> string)
    ensures
      var pos := Attribution("CAE_TYPE_5 > 0.5", 0.42);
      var neg := Attribution("NUMBER_OFFERS <= 3", -0.1);
      ConvertToIfThen(map[0 := [pos, neg]], 0, "long", fmt4)
        == [Prefix("long") + (Influential + Cite(pos, fmt4) + ".")]
  {
    var pos := Attribution("CAE_TYPE_5 > 0.5", 0.42);
    var neg := Attribution("NUMBER_OFFERS <= 3", -0.1);
    assert [pos, neg][1..] == [neg];
    assert Parts([neg], fmt4) == [];
    assert Parts([pos, neg], fmt4) == [Cite(pos, fmt4)];
    assert AsList(map[0 := [pos, neg]], 0) == Found([pos, neg]);
    var v := Verdict(Found([pos, neg]), fmt4);
    assert v == Influential + Cite(pos, fmt4) + ".";
    assert ConvertToIfThen(map[0 := [pos, neg]], 0, "long", fmt4) == [Prefix("long") + v];
  }
}

=== FILE: table.dfy ===
/** The attribution table of `Util/Util.py`: each (feature, weight) pair of
    an explanation becomes a row naming the feature, the instance's value for
    it and the direction of its influence. */
module Table {
  import opened Wrappers
  import opened Values
  import opened Text
  import opened Attributions

  /** The direction column: `"Positiva"` or `"Negativa"`. */
  datatype Influence = Positiva | Negativa

  /** One table row: `{"caracteristica", "valor", "influencia"}`. */
  datatype Row = Row(caracteristica: string, valor: Value, influencia: Influence)

  /** Why the table could not be built: `as_list()` raised `KeyError` because
      the explanation has no entry for the default label, or `split()[0]`
      raised `IndexError` because the feature text at position `index` holds
      no token. */
  datatype TableError = MissingLabel | IndexError(index: nat)

  /** The one-row data frame of the instance, column name to value. */
  type Frame = map<string, Value>

  /** The value shown when the frame has no column of that name. */
  const Unknown := StrVal("?")

  /** What a row for `a` must hold: the full feature text, the value of the
      column named by the text's first token (or "?"), and a direction that is
      Positiva exactly for a non-negative weight. */
  predicate Describes(row: Row, a: Attribution, frame: Frame)
  {
    && row.caracteristica == a.feature
    && FirstToken(a.feature).Some?
    && row.valor == ValueOf(FirstToken(a.feature).value, frame)
    && (row.influencia == Positiva <==> a.weight >= 0.0)
  }

  /** The instance's value in the column called `name`, or the literal "?"
      when the frame has no such column. */
  function ValueOf(name: string, frame: Frame): (v: Value)
    ensures name in frame ==> v == frame[name]
    ensures name !in frame ==> v == StrVal("?")
  {
    if name in frame then frame[name] else Unknown
  }

  /** One iteration of the loop in `construir_tabla_lime`. */
  function BuildRow(a: Attribution, frame: Frame): (r: Option<Row>)
    ensures r.None? <==> AllSpace(a.feature)
    ensures r.Some? ==> Describes(r.value, a, frame)
  {
    match FirstToken(a.feature)
    case None => None
    case Some(name) =>
      var influencia := if a.weight >= 0.0 then Positiva else Negativa;
      Some(Row(a.feature, ValueOf(name, frame), influencia))
  }

  /** The loop of `construir_tabla_lime` over a list of pairs: one row per
      pair, in order, or the `IndexError` of the first feature that holds no
      token. */
  function BuildRows(pairs: seq<Attribution>, frame: Frame): (r: Result<seq<Row>, TableError>)
    ensures r.Success? <==> forall i :: 0 <= i < |pairs| ==> !AllSpace(pairs[i].feature)
    ensures r.Success? ==> |r.value| == |pairs|
    ensures r.Success? ==> forall i :: 0 <= i < |pairs| ==> Describes(r.value[i], pairs[i], frame)
    ensures r.Failure? ==>
      && r.error.IndexError?
      && r.error.index < |pairs|
      && AllSpace(pairs[r.error.index].feature)
      && forall i :: 0 <= i < r.error.index ==> !AllSpace(pairs[i].feature)
    decreases |pairs|
  {
    if pairs == [] then Success([])
    else
      match BuildRow(pairs[0], frame)
      case None => Failure(IndexError(0))
      case Some(row) =>
        match BuildRows(pairs[1..], frame)
        case Failure(e) => Failure(IndexError(e.index + 1))
        case Success(rows) => Success([row] + rows)
  }

  /** `construir_tabla_lime(explicacion, datos_df)`: the table of the pairs
      `as_list()` returns for the default label, or `MissingLabel` when the
      explanation has no entry for that label. */
  function BuildTable(explanation: Explanation, frame: Frame): (r: Result<seq<Row>, TableError>)
    ensures r == Failure(MissingLabel) <==> DefaultLabel !in explanation
    ensures DefaultLabel in explanation ==>
      var pairs := explanation[DefaultLabel];
      && (r.Success? <==> forall i :: 0 <= i < |pairs| ==> !AllSpace(pairs[i].feature))
      && (r.Success? ==> |r.value| == |pairs|
                         && forall i :: 0 <= i < |pairs| ==> Describes(r.value[i], pairs[i], frame))
  {
    match AsList(explanation, DefaultLabel)
    case NotFound => Failure(MissingLabel)
    case Found(pairs) => BuildRows(pairs, frame)
  }

  /** The value column follows the first whitespace-separated token: a
      feature written as `<name> <condition>` reads column `<name>`, and
      a missing column reads "?". */
  lemma ValueOfCondition(pairs: seq<Attribution>, frame: Frame, i: nat,
                         lead: string, name: string, rest: string)
    requires i < |pairs|
    requires AllSpace(lead) && name != [] && NoSpace(name) && (rest == [] || IsSpace(rest[0]))
    requires pairs[i].feature == lead + name + rest
    requires BuildRows(pairs, frame).Success?
    ensures BuildRows(pairs, frame).value[i].valor == ValueOf(name, frame)
  {
    FirstTokenOf(lead, name, rest);
  }
}

=== FILE: text.dfy ===
/** The two pieces of Python string behaviour the core relies on:
    `str.split()` with no separator (only its first token is used) and
    `sep.join(parts)`. */
module Text {
  import opened Wrappers

  /** Python's `str.isspace` for a single character. */
  predicate IsSpace(c: char)
  {
    || c == ' ' || c == '\t' || c == '\n' || c == '\r'
    || c == '\U{000B}' || c == '\U{000C}'
    || ('\U{001C}' <= c <= '\U{001F}')
    || c == '\U{0085}' || c == '\U{00A0}' || c == '\U{1680}'
    || ('\U{2000}' <= c <= '\U{200A}')
    || c == '\U{2028}' || c == '\U{2029}' || c == '\U{202F}'
    || c == '\U{205F}' || c == '\U{3000}'
  }

  predicate AllSpace(s: string)
  {
    forall i :: 0 <= i < |s| ==> IsSpace(s[i])
  }

  predicate NoSpace(s: string)
  {
    forall i :: 0 <= i < |s| ==> !IsSpace(s[i])
  }

  /** The first position at or after `i` that does not hold whitespace. */
  function SkipSpace(s: string, i: nat): (j: nat)
    requires i <= |s|
    ensures i <= j <= |s|
    ensures AllSpace(s[i..j])
    ensures j < |s| ==> !IsSpace(s[j])
    decreases |s| - i
  {
    if i == |s| || !IsSpace(s[i]) then i else SkipSpace(s, i + 1)
  }

  /** The first position at or after `i` that holds whitespace. */
  function SkipWord(s: string, i: nat): (j: nat)
    requires i <= |s|
    ensures i <= j <= |s|
    ensures NoSpace(s[i..j])
    ensures j < |s| ==> IsSpace(s[j])
    decreases |s| - i
  {
    if i == |s| || IsSpace(s[i]) then i else SkipWord(s, i + 1)
  }

  /** `s.split()[0]`: the first maximal run of non-whitespace characters,
      or `None` where Python raises `IndexError` because `s` holds no token. */
  function FirstToken(s: string): (r: Option<string>)
    ensures r.None? <==> AllSpace(s)
    ensures r.Some? ==> r.value != [] && NoSpace(r.value)
    ensures r.Some? ==>
      exists i :: 0 <= i <= |s| - |r.value| && AllSpace(s[..i])
        && s[i..i + |r.value|] == r.value
        && (i + |r.value| == |s| || IsSpace(s[i + |r.value|]))
  {
    var i := SkipSpace(s, 0);
    if i == |s| then
      assert s[0..i] == s;
      None
    else
      var j := SkipWord(s, i);
      assert s[..i] == s[0..i];
      assert !AllSpace(s) by { assert !IsSpace(s[i]); }
      Some(s[i..j])
  }

  /** Skipping whitespace from `i` stops exactly where the blank run ends. */
  lemma {:induction false} SkipSpaceStopsAt(s: string, i: nat, k: nat)
    requires i <= k <= |s| && AllSpace(s[i..k]) && (k == |s| || !IsSpace(s[k]))
    ensures SkipSpace(s, i) == k
    decreases k - i
  {
    if i < k {
      assert s[i..k][0] == s[i];
      assert s[i + 1..k] == s[i..k][1..];
      SkipSpaceStopsAt(s, i + 1, k);
    }
  }

  /** Skipping a word from `i` stops exactly where the non-blank run ends. */
  lemma {:induction false} SkipWordStopsAt(s: string, i: nat, k: nat)
    requires i <= k <= |s| && NoSpace(s[i..k]) && (k == |s| || IsSpace(s[k]))
    ensures SkipWord(s, i) == k
    decreases k - i
  {
    if i < k {
      assert s[i..k][0] == s[i];
      assert s[i + 1..k] == s[i..k][1..];
      SkipWordStopsAt(s, i + 1, k);
    }
  }

  /** The converse of `FirstToken`'s contract: a blank lead, a word and a
      remainder that is empty or starts with whitespace always yield that word. */
  lemma FirstTokenOf(lead: string, word: string, rest: string)
    requires AllSpace(lead) && word != [] && NoSpace(word)
    requires rest == [] || IsSpace(rest[0])
    ensures FirstToken(lead + word + rest) == Some(word)
  {
    var s := lead + word + rest;
    assert s[..|lead|] == lead;
    assert s[|lead|] == word[0];
    assert s[0..|lead|] == lead;
    SkipSpaceStopsAt(s, 0, |lead|);
    assert s[|lead|..|lead| + |word|] == word;
    if rest != [] {
      assert s[|lead| + |word|] == rest[0];
    }
    SkipWordStopsAt(s, |lead|, |lead| + |word|);
  }

  /** The summed length of a list of strings. */
  function TotalLength(parts: seq<string>): nat
    decreases |parts|
  {
    if parts == [] then 0 else |parts[0]| + TotalLength(parts[1..])
  }

  /** Python's `sep.join(parts)`: the parts in order, with one separator
      between each neighbouring two and none at either end. */
  function Join(parts: seq<string>, sep: string): (r: string)
    ensures |parts| == 1 ==> r == parts[0]
    ensures |r| == TotalLength(parts) + (if parts == [] then 0 else (|parts| - 1) * |sep|)
    ensures |parts| > 0 ==> |parts[0]| <= |r| && r[..|parts[0]|] == parts[0]
    decreases |parts|
  {
    if |parts| == 0 then ""
    else if |parts| == 1 then parts[0]
    else parts[0] + sep + Join(parts[1..], sep)
  }

  /** `a` occurs in `b` starting at position `k`. */
  predicate OccursAt(a: string, b: string, k: nat)
  {
    k + |a| <= |b| && b[k..k + |a|] == a
  }

  /** `a` is a contiguous piece of `b`. */
  ghost predicate IsInfix(a: string, b: string)
  {
    exists k: nat :: k <= |b| && OccursAt(a, b, k)
  }

  lemma OccursShifted(a: string, pre: string, b: string, post: string, k: nat)
    requires OccursAt(a, b, k)
    ensures OccursAt(a, pre + b + post, |pre| + k)
  {
    var s := pre + b + post;
    assert s[|pre| + k..|pre| + k + |a|] == b[k..k + |a|];
  }

  /** Every part survives, verbatim, in the joined text. */
  lemma {:induction false} JoinKeepsParts(parts: seq<string>, sep: string, n: nat)
    requires n < |parts|
    ensures IsInfix(parts[n], Join(parts, sep))
    decreases |parts|
  {
    if |parts| == 1 {
      assert OccursAt(parts[0], Join(parts, sep), 0);
    } else if n == 0 {
      var s := Join(parts, sep);
      assert s == parts[0] + (sep + Join(parts[1..], sep));
      assert s[0..|parts[0]|] == parts[0];
      assert OccursAt(parts[0], s, 0);
    } else {
      JoinKeepsParts(parts[1..], sep, n - 1);
      var k: nat :| OccursAt(parts[n], Join(parts[1..], sep), k);
      OccursShifted(parts[n], parts[0] + sep, Join(parts[1..], sep), "", k);
      assert parts[0] + sep + Join(parts[1..], sep) + "" == Join(parts, sep);
    }
  }

  /** Text placed around a joined list still contains every part. */
  lemma JoinKeepsPartsInside(parts: seq<string>, sep: string, n: nat, pre: string, mid: string, post: string)
    requires n < |parts|
    ensures IsInfix(parts[n], pre + (mid + Join(parts, sep) + post))
  {
    var joined := Join(parts, sep);
    JoinKeepsParts(parts, sep, n);
    var k: nat :| k <= |joined| && OccursAt(parts[n], joined, k);
    OccursShifted(parts[n], pre + mid, joined, post, k);
    assert pre + mid + joined + post == pre + (mid + joined + post);
    assert |pre + mid| + k <= |pre + (mid + joined + post)|;
  }
}

=== FILE: values.dfy ===
/** The scalar JSON values a request can carry, and Python's truthiness
    test on them. */
module Values {
  import opened Wrappers

  /** A decoded JSON scalar: `null`, a boolean, an integer, a float or a string. */
  datatype Value =
    | Null
    | BoolVal(b: bool)
    | IntVal(i: int)
    | RealVal(r: real)
    | StrVal(s: string)

  /** Python's `bool(v)`: `None`, `False`, `0`, `0.0` and `""` are falsy, every
      other scalar is truthy. An absent value reads as `None`. */
  predicate Truthy(v: Option<Value>)
    ensures Truthy(v) <==>
      v.Some? && v.value !in {Null, BoolVal(false), IntVal(0), RealVal(0.0), StrVal("")}
  {
    match v
    case None => false
    case Some(Null) => false
    case Some(BoolVal(b)) => b
    case Some(IntVal(i)) => i != 0
    case Some(RealVal(r)) => r != 0.0
    case Some(StrVal(s)) => s != ""
  }
}

=== FILE: wrappers.dfy ===
/** Failure-carrying result types used in place of the exceptions the
    service raises and catches. */
module Wrappers {

  /** A value that may be absent (Python's `None`). */
  datatype Option<+T> = None | Some(value: T)

  /** Either a computed value or the error that aborted the computation. */
  datatype Result<+R, +E> = Success(value: R) | Failure(error: E)
}
